=== FILE: README.md ===
# asyncImageLoader in Dafny

A model of the caching and request logic of `AsynImageLoader`, a small
Android image loader. The model covers:

- the memory tier (`MemoryCache`): a map from key to a soft reference, which
  the garbage collector may clear at any time;
- the disk tier (`DiskCache`): one file per key under a root directory, with
  the content encoded as PNG at quality 80;
- the loader itself. `displayImage` probes memory, then disk, then submits a
  download task to a lazily created fixed-size pool. `LoaderRunnable.run`
  downscales the decoded bitmap to a bounding box. `LoaderHandler.handleMessage`
  caches and shows the result. The clear and release calls complete the lifecycle.

Files:

- `platform.dfy` (module `Platform`): shared values. These are the abstract
  bitmap (positive real width and height), the platform codec, the Java
  exceptions that change control flow, and the effects on an image view.
- `memory_cache.dfy` (module `Memory`): the soft map as
  `map<string, Option<Bitmap>>`, where `None` is a reclaimed reference. It
  holds the class `MemoryCache` and the lemmas about reclamation.
- `disk_cache.dfy` (module `Disk`): the file system under the root as
  `RootState = Absent | RegularFile | Directory(files)`. It holds the pure
  effect of each operation and the class `DiskCache`, whose methods are
  proved to have those effects. `clear` is a loop over the listed files.
- `loader.dfy` (module `Loader`): `Options`, `Builder`, `WorkerPool`,
  `LoaderHandler`, the scale choice and the class `AsynImageLoader`. The
  loader's mutable state is abstracted as a `LoaderState` value. The pure
  functions `Constructed`, `Request`, `Run`, `Deliver`, `ClearedMemory`,
  `ClearedDisk` and `Released` give the effect of each operation on that
  value. Each method of `AsynImageLoader` is proved to have exactly that
  effect (`Abstract() == F(old(Abstract()), ...)`). The lemmas then relate
  several operations.

The platform's side is modelled as parameters:

- The encoder and decoder (`Bitmap.compress`, `BitmapFactory.decodeFile`) are
  a `Codec` value holding two arbitrary functions. Decoding may fail.
- The state of the root path before construction and the outcome of `mkdir`
  are constructor parameters.
- Whether `File.delete` succeeds is a parameter of `remove` and `clear`.
- How the output stream of `save` fares is a `Disk.WriteFault` parameter of
  `save` and of the handler: no fault, the stream cannot be opened, or flush
  or close fails after only part of the encoding reached the file.
- The result of the network fetch and decode is a `Fetch` value.
- Garbage-collector reclamation is an explicit step: `Memory.Reclaim`, and
  `MemoryCache.GarbageCollect` on the class.

The model follows the code as written. Behaviours worth knowing:

- There is no per-key de-duplication of in-flight fetches. Every miss
  submits its own task (`Loader.NoDeduplication`).
- One handler is shared by all requests. Each miss overwrites its view and
  key, so a completed download is shown and cached under the key of the most
  recent miss, not the key it was fetched for
  (`Loader.CompletionCachedUnderLatestKey`).
- The disk tier has no initialisation error. `DiskCache`'s constructor
  declares `IOException` but never throws it, and it ignores the result of
  `mkdir`. The `catch` in the loader's constructor is therefore dead, and the
  disk tier exists exactly when `diskCacheable` is set. Operations on a root
  that could not be created then fail one by one: `save` throws
  `IOException` (swallowed by the handler), and `clear` throws
  `NullPointerException`.
- An exception from `clearDiskCache` propagates out of `releas`, which then
  clears neither memory nor the pool.
- Writes to disk are not atomic: `save` writes the file in place. When flush
  or close fails, the file is left holding a prefix of the encoding and the
  handler swallows the `IOException`; when the stream cannot be opened, for
  instance in a directory that is not writable, no file is written.
- A fetch that throws `IOException` sends no message at all, so the failure
  image is not shown. Only a null decode sends failure message 1.
- A pool created before `releas` is shut down and never re-created. A later
  miss points the handler at the new request and is then rejected with
  `RejectedExecutionException` (`Loader.ReleaseEmptiesTiers`). If `releas`
  came before the first miss, there was no pool to shut down, and the next
  miss creates one and submits normally, provided the pool size is positive.
- A pool size of zero or less makes every miss throw
  `IllegalArgumentException`, since the pool stays null. In that case the
  pool and the handler stay unchanged.

## Model

| member | source | states |
|---|---|---|
| `Memory.Reclaim` | src/com/pqpo/android/asyncimageloader/MemoryCache.java:13 | a reclaimed soft reference keeps its key, reads as null, and leaves every other entry as it was |
| `Memory.ReclaimKeepsKeys` | src/com/pqpo/android/asyncimageloader/MemoryCache.java:13 | no sequence of garbage-collector steps removes a key: the key set is unchanged |
| `Memory.LookupAfterReclaims` | src/com/pqpo/android/asyncimageloader/MemoryCache.java:22-29 | after any reclamations, a key reads as null iff it was reclaimed at some step, otherwise as before |
| `Memory.GetAfterPut` | src/com/pqpo/android/asyncimageloader/MemoryCache.java:16-29 | get after put(k, v) returns v unless k was reclaimed in between (then null); the key set is the old one plus k |
| `Memory.MemoryCache.constructor` | src/com/pqpo/android/asyncimageloader/MemoryCache.java:13 | the soft map starts empty |
| `Memory.MemoryCache.Put` | src/com/pqpo/android/asyncimageloader/MemoryCache.java:16-19 | always returns true; replaces the entry for the key with a live reference; other keys unchanged |
| `Memory.MemoryCache.Get` | src/com/pqpo/android/asyncimageloader/MemoryCache.java:22-29 | null for a key with no entry; otherwise the entry's value, which is null when it was reclaimed |
| `Memory.MemoryCache.Remove` | src/com/pqpo/android/asyncimageloader/MemoryCache.java:32-35 | returns the still-live value or null; afterwards the key has no entry and other keys read as before |
| `Memory.MemoryCache.Keys` | src/com/pqpo/android/asyncimageloader/MemoryCache.java:38-40 | exactly the keys with an entry, reclaimed ones included |
| `Memory.MemoryCache.Clear` | src/com/pqpo/android/asyncimageloader/MemoryCache.java:43-45 | no entries remain and every get returns null |
| `Memory.MemoryCache.GarbageCollect` | src/com/pqpo/android/asyncimageloader/MemoryCache.java:13 | the collector's step on the class: the effect of `Memory.Reclaim` on the soft map |
| `Disk.Created` | src/com/pqpo/android/asyncimageloader/DiskCache.java:16-19 | an existing root is left untouched; a missing root becomes an empty directory if mkdir succeeds, otherwise stays missing, with no error |
| `Disk.DiskCache.constructor` | src/com/pqpo/android/asyncimageloader/DiskCache.java:16-19 | records root and codec; the directory is `Disk.Created` of the prior state |
| `Disk.DiskCache.GetDirectory` | src/com/pqpo/android/asyncimageloader/DiskCache.java:14-24 | returns the root given at construction (a constant field) |
| `Disk.FileGet` | src/com/pqpo/android/asyncimageloader/DiskCache.java:27-34 | null when no file named key exists; when it exists, exactly the codec's decoding of its bytes (null when decoding fails) |
| `Disk.DiskCache.Get` | src/com/pqpo/android/asyncimageloader/DiskCache.java:27-34 | returns `Disk.FileGet` of the current directory; null when there is no file |
| `Disk.FileSave` | src/com/pqpo/android/asyncimageloader/DiskCache.java:37-45 | IOException iff the root is not a directory or the stream faults; a failed open changes nothing; a failed flush or close leaves the file holding a prefix of the PNG/80 encoding no longer than what reached it; without a fault the file holds the encoding, the encoder's flag is returned and get decodes exactly those bytes; other files never change |
| `Disk.DiskCache.Save` | src/com/pqpo/android/asyncimageloader/DiskCache.java:37-45 | has exactly the effect and result of `Disk.FileSave` for the same stream fault |
| `Disk.SaveThenGet` | src/com/pqpo/android/asyncimageloader/DiskCache.java:29-45 | with a size-preserving codec, a save returning true is followed by a get that finds a bitmap of the same dimensions; a save whose stream could not be opened leaves get's result unchanged |
| `Disk.FileRemove` | src/com/pqpo/android/asyncimageloader/DiskCache.java:48-55 | false and no change without a file; otherwise the delete result, and on success exactly that file is gone; the root stays a directory and other files are unchanged |
| `Disk.DiskCache.Remove` | src/com/pqpo/android/asyncimageloader/DiskCache.java:48-55 | has exactly the effect and result of `Disk.FileRemove` |
| `Disk.Cleared` | src/com/pqpo/android/asyncimageloader/DiskCache.java:58-65 | NullPointerException iff the root is not a directory; otherwise only files whose delete failed remain |
| `Disk.DiskCache.Clear` | src/com/pqpo/android/asyncimageloader/DiskCache.java:58-65 | the loop over the listed files has the effect of `Disk.Cleared`; on the exception nothing changes |
| `Disk.ClearEmpties` | src/com/pqpo/android/asyncimageloader/DiskCache.java:58-65 | when every delete succeeds, the directory is empty and get finds nothing |
| `Loader.Builder.constructor` | src/com/pqpo/android/asyncimageloader/AsynImageLoader.java:192-209 | the Options defaults: pool size 3, both tiers off, no placeholder or failure image, no debug, box 320 x 800 |
| `Loader.Builder.CacheInMemory` | src/com/pqpo/android/asyncimageloader/AsynImageLoader.java:216-219 | sets memoryCacheable only and returns the builder |
| `Loader.Builder.CacheOnDisk` | src/com/pqpo/android/asyncimageloader/AsynImageLoader.java:225-228 | sets diskCacheable only and returns the builder |
| `Loader.Builder.ShowImageOnLoading` | src/com/pqpo/android/asyncimageloader/AsynImageLoader.java:234-237 | sets imageOnLoading only and returns the builder |
| `Loader.Builder.ShowImageOnFail` | src/com/pqpo/android/asyncimageloader/AsynImageLoader.java:243-246 | sets imageOnFail only and returns the builder |
| `Loader.Builder.ShowDebugLogs` | src/com/pqpo/android/asyncimageloader/AsynImageLoader.java:252-255 | sets debug only and returns the builder |
| `Loader.Builder.ThreadPoolSize` | src/com/pqpo/android/asyncimageloader/AsynImageLoader.java:261-264 | sets threadPoolSize only and returns the builder |
| `Loader.Builder.DiskCacheDir` | src/com/pqpo/android/asyncimageloader/AsynImageLoader.java:270-273 | sets diskCacheDir only and returns the builder |
| `Loader.Builder.CacheExtraOptions` | src/com/pqpo/android/asyncimageloader/AsynImageLoader.java:279-283 | sets the box width and height only and returns the builder |
| `Loader.Builder.Build` | src/com/pqpo/android/asyncimageloader/AsynImageLoader.java:289-293 | a fresh loader over the builder's options, in the state `Loader.Constructed` |
| `Loader.Constructed` | src/com/pqpo/android/asyncimageloader/AsynImageLoader.java:32-46 | the memory tier exists iff memoryCacheable (empty); the disk tier exists iff diskCacheable; no pool; the handler's key is "default" |
| `Loader.AsynImageLoader.constructor` | src/com/pqpo/android/asyncimageloader/AsynImageLoader.java:32-46 | the new loader's state is `Loader.Constructed`, and the tiers follow the options |
| `Loader.Request` | src/com/pqpo/android/asyncimageloader/AsynImageLoader.java:54-82 | the placeholder is shown first. A memory hit returns at once and changes nothing. Otherwise a disk hit is written through to memory (if enabled) and nothing else changes. A miss in every tier leaves the tiers alone, creates the pool only if absent and never replaces it, points the handler at this view and key, and submits exactly one task. A newly created pool is running, of the configured size, and holds just this task. A miss fails with IllegalArgumentException exactly when there is no pool and the size is <= 0 (nothing changes), and with RejectedExecutionException exactly when the pool is shut down (the handler is already re-pointed) |
| `Loader.AsynImageLoader.DisplayImage` | src/com/pqpo/android/asyncimageloader/AsynImageLoader.java:54-82 | has exactly the effect, outcome and view updates of `Loader.Request`; an existing pool object is kept and a new one is fresh |
| `Loader.NewPool` | src/com/pqpo/android/asyncimageloader/AsynImageLoader.java:126-128 | a fixed pool of the given size with no tasks, or IllegalArgumentException iff the size is not positive |
| `Loader.AsynImageLoader.InitThreadPool` | src/com/pqpo/android/asyncimageloader/AsynImageLoader.java:126-128 | assigns a fresh pool in the state `Loader.NewPool`, or throws and leaves the field alone |
| `Loader.PoolExecute` | src/com/pqpo/android/asyncimageloader/AsynImageLoader.java:81 | a running pool appends exactly this task; a shut-down pool throws RejectedExecutionException |
| `Loader.WorkerPool.constructor` | src/com/pqpo/android/asyncimageloader/AsynImageLoader.java:127 | a running pool of the given size with no tasks |
| `Loader.WorkerPool.Execute` | src/com/pqpo/android/asyncimageloader/AsynImageLoader.java:81 | has exactly the effect of `Loader.PoolExecute`; a rejected task changes nothing |
| `Loader.WorkerPool.Shutdown` | src/com/pqpo/android/asyncimageloader/AsynImageLoader.java:189 | the pool is shut down and keeps its tasks |
| `Loader.ChooseScale` | src/com/pqpo/android/asyncimageloader/AsynImageLoader.java:100-111 | no scaling iff the bitmap fits the box; otherwise a factor strictly between 0 and 1 that makes both sides fit and makes one side touch the box |
| `Loader.ChosenScaleIsLargestFit` | src/com/pqpo/android/asyncimageloader/AsynImageLoader.java:104-110 | every uniform factor that fits the box is at most the chosen one: min(height/ch, width/cw) is the largest fitting factor |
| `Loader.Run` | src/com/pqpo/android/asyncimageloader/AsynImageLoader.java:92-122 | no message iff the fetch threw IOException; a null decode sends failure 1; a decoded bitmap sends success 0 carrying a bitmap that keeps the aspect ratio and picture, is unchanged when it already fit, and otherwise is the bitmap scaled on both axes by `ChooseScale`'s factor, fitting the box with one side touching it |
| `Loader.DefaultBoxExample` | src/com/pqpo/android/asyncimageloader/AsynImageLoader.java:100-113 | with the default 320 x 800 box, a 1000 x 500 bitmap is scaled by 0.32 to 320 x 160 |
| `Loader.LoaderHandler.constructor` | src/com/pqpo/android/asyncimageloader/AsynImageLoader.java:131-133 | the handler starts with no view and key "default" |
| `Loader.LoaderHandler.SetImageView` | src/com/pqpo/android/asyncimageloader/AsynImageLoader.java:135-137 | replaces the view only |
| `Loader.LoaderHandler.SetKey` | src/com/pqpo/android/asyncimageloader/AsynImageLoader.java:139-141 | replaces the key only |
| `Loader.Deliver` | src/com/pqpo/android/asyncimageloader/AsynImageLoader.java:144-162 | a success is shown in the handler's view if any, and is put into memory and saved to disk (each if enabled) under the handler's current key, the disk tier becoming whatever `Disk.FileSave` leaves for the given stream fault. The memory put stands whatever the save does. Any other message changes no state, and the failure image is shown only for message 1 with imageOnFail != -1 and a view |
| `Loader.AsynImageLoader.HandleMessage` | src/com/pqpo/android/asyncimageloader/AsynImageLoader.java:144-162 | has exactly the effect and view updates of `Loader.Deliver` for the same stream fault |
| `Loader.ClearedMemory` | src/com/pqpo/android/asyncimageloader/AsynImageLoader.java:168-171 | an enabled memory tier becomes empty; a disabled one stays absent; nothing else changes |
| `Loader.AsynImageLoader.ClearMemoryCache` | src/com/pqpo/android/asyncimageloader/AsynImageLoader.java:168-171 | has exactly the effect of `Loader.ClearedMemory` |
| `Loader.ClearedDisk` | src/com/pqpo/android/asyncimageloader/AsynImageLoader.java:175-178 | no-op for a disabled tier; otherwise the effect of `Disk.Cleared`, whose NullPointerException propagates with nothing changed |
| `Loader.AsynImageLoader.ClearDiskCache` | src/com/pqpo/android/asyncimageloader/AsynImageLoader.java:175-178 | has exactly the effect and outcome of `Loader.ClearedDisk` |
| `Loader.Released` | src/com/pqpo/android/asyncimageloader/AsynImageLoader.java:183-190 | clears disk only when asked, always clears memory, and shuts the pool only if one was created. It throws only when the disk clear throws, and then nothing changes |
| `Loader.AsynImageLoader.Releas` | src/com/pqpo/android/asyncimageloader/AsynImageLoader.java:183-190 | has exactly the effect and outcome of `Loader.Released` |
| `Loader.NoDeduplication` | src/com/pqpo/android/asyncimageloader/AsynImageLoader.java:76-81 | two misses for the same uncached key both submit, so two tasks are queued |
| `Loader.CompletionCachedUnderLatestKey` | src/com/pqpo/android/asyncimageloader/AsynImageLoader.java:79-81 | after misses for k1 then k2, the download started for k1 is delivered as a bitmap shown in k2's view and cached under k2, while k1 stays uncached in memory |
| `Loader.SecondRequestHitsMemory` | src/com/pqpo/android/asyncimageloader/AsynImageLoader.java:59-81 | a miss submits one task; after its success, a second request for the key is a memory hit on the downloaded bitmap with no new task, unless the collector reclaimed it |
| `Loader.ReleaseEmptiesTiers` | src/com/pqpo/android/asyncimageloader/AsynImageLoader.java:183-190 | after releas(true) with successful deletes, both enabled tiers are empty; a pool created before releas is shut down and never re-created, so a later miss is rejected; if releas came first, the next miss creates a pool and submits when the pool size is positive, and throws IllegalArgumentException otherwise |

## Left out

- Android UI: `ImageView` calls are recorded as a returned list of `UiEffect`s and nothing more. A null `imageView` passed to `displayImage` is not modelled: it throws on a hit or with a placeholder configured, and on a miss without a placeholder it makes the completion cache the bitmap without showing it.
- `Log` output and the `isDebug` flag only affect logging. They are kept as a field, with no behaviour.
- The `Handler`/`Message` thread hop: `handleMessage` is a direct call with the message (`Loader.Complete` chains `run` and the delivery).
- Network I/O: `HttpURLConnection`, its timeouts and streams, and the stream left open when an exception is thrown. The outcome of the fetch and decode is the `Fetch` parameter of `Loader.Run`.
- Pixel work: `BitmapFactory` decoding and `Bitmap.compress` are arbitrary functions in `Codec`. `Matrix`/`createBitmap` resampling keeps an abstract picture tag and multiplies both sides by the factor. Rounding of the new size to whole pixels is not modelled.
- Floating point: sizes and factors are exact reals. No IEEE rounding is claimed.
- Concurrency: the executor's threads, `synchronized`, and the locking of `Collections.synchronizedMap`. The pool is its size, a shut-down flag and the sequence of accepted tasks. A completion is applied to the loader's state whenever a lemma chooses, in any order.
- Garbage-collector timing: reclamation is an explicit step, `Memory.Reclaim` / `MemoryCache.GarbageCollect`.
- `Options.context` and the default external-storage path. The default directory is a parameter of the `Builder` constructor.
- Loader.Builder.Build: the Java loader keeps a reference to the builder's own `Options` object. Setters called on the builder after `build` would therefore change a built loader's placeholder, failure image, box and pool size. The model copies the options by value at build time.
- Loader.Builder.CacheExtraOptions: the box sides are positive reals. A zero or negative box, which Android's `createBitmap` would reject with an exception, is not modelled.
- Memory.MemoryCache.Keys: returns a snapshot set, while Java's `keySet()` is a live view that follows later changes.
- `DiskCache.close()` does nothing and is never called by the loader. `DiskCacheInterface` and `MemoryCacheInterface` only fix method signatures.
- The file system under the root holds only regular files named by keys. Keys containing path separators, subdirectories, changes made by other processes, and a root deleted after construction are not modelled.
- `LoaderRunnable` reading `options` and the handler from another thread, and the data race on the handler's view and key, are reduced to the sequential order chosen by each lemma.

=== FILE: disk_cache.dfy ===
/** The disk tier: one file per key directly under a root directory, the file
    name being the key and the content the bitmap encoded as PNG at quality 80.
    The file system under the root is modelled by RootState. */
module Disk {
  import opened Platform

  /** What exists at the root path. */
  datatype RootState =
    | Absent
    | RegularFile                                  // exists, but is not a directory
    | Directory(files: map<string, Bytes>)        // file name -> content

  /** The format and quality DiskCache.save passes to Bitmap.compress. */
  const SaveFormat: CompressFormat := PNG
  const SaveQuality: int := 80

  /** Whether File(root, key).exists(). */
  predicate HasFile(d: RootState, key: string)
  {
    d.Directory? && key in d.files
  }

  /** The content of the file named key, if there is one. */
  function Entry(d: RootState, key: string): Option<Bytes>
  {
    if HasFile(d, key) then Some(d.files[key]) else None
  }

  /** The root after the constructor: an existing root is left alone; a
      missing one is created by mkdir, whose failure is not checked. */
  function Created(before: RootState, mkdirSucceeds: bool): (r: RootState)
    ensures before != Absent ==> r == before
    ensures before == Absent && mkdirSucceeds ==> r == Directory(map[])
    ensures before == Absent && !mkdirSucceeds ==> r == Absent
  {
    if before == Absent && mkdirSucceeds then Directory(map[]) else before
  }

  /** What get(key) returns: null when no file named key exists, otherwise
      the decoding of its content, which is null when decoding fails. */
  function FileGet(codec: Codec, d: RootState, key: string): (r: Option<Bitmap>)
    ensures !HasFile(d, key) ==> r == None
    ensures HasFile(d, key) ==> r == codec.decode(d.files[key])
    ensures r.Some? ==> exists bytes :: Entry(d, key) == Some(bytes) && codec.decode(bytes) == r
  {
    if HasFile(d, key) then codec.decode(d.files[key]) else None
  }

  datatype SaveStep = SaveStep(dir: RootState, result: Attempt<bool>)

  /** How the output stream of save() fares: it is opened, written, flushed
      and closed without error; it cannot be opened (FileNotFoundException,
      for instance in a directory that is not writable); or it was opened,
      which creates or truncates the file, and flush or close then fails
      after only the first `kept` bytes reached the file. */
  datatype WriteFault = NoFault | OpenFails | FlushFails(kept: nat)

  /** The first n bytes of b, or all of b when it is shorter. */
  function Truncated(b: Bytes, n: nat): (r: Bytes)
    ensures r <= b && |r| <= n
    ensures |b| <= n ==> r == b
  {
    if n < |b| then b[..n] else b
  }

  /** save(key, bitmap): an IOException when the stream cannot be opened,
      which is always the case when the root is not a directory, and when
      flush or close fails, in which case the file is left holding a prefix
      of the encoding. Otherwise the file named key is (over)written with
      what the encoder produced, and the encoder's success flag is
      returned. */
  function FileSave(codec: Codec, d: RootState, key: string, bitmap: Bitmap, fault: WriteFault): (r: SaveStep)
    ensures r.result.Threw? <==> !d.Directory? || fault != NoFault
    ensures r.result.Threw? ==> r.result.error == IOException
    ensures !d.Directory? || fault == OpenFails ==> r.dir == d
    ensures d.Directory? && fault.FlushFails? ==>
      && HasFile(r.dir, key)
      && r.dir.files[key] <= codec.compress(SaveFormat, SaveQuality, bitmap).bytes
      && |r.dir.files[key]| <= fault.kept
    ensures r.result.Done? ==>
      var encoded := codec.compress(SaveFormat, SaveQuality, bitmap);
      && r.result.value == encoded.ok
      && Entry(r.dir, key) == Some(encoded.bytes)
      && FileGet(codec, r.dir, key) == codec.decode(encoded.bytes)
    ensures forall k :: k != key ==> Entry(r.dir, k) == Entry(d, k)
  {
    match d
    case Directory(files) =>
      if fault == OpenFails then SaveStep(d, Threw(IOException))
      else
        var encoded := codec.compress(SaveFormat, SaveQuality, bitmap);
        if fault.FlushFails? then
          SaveStep(Directory(files[key := Truncated(encoded.bytes, fault.kept)]), Threw(IOException))
        else
          SaveStep(Directory(files[key := encoded.bytes]), Done(encoded.ok))
    case _ => SaveStep(d, Threw(IOException))
  }

  /** With a size-preserving codec, a save that returned true is followed by
      a get that finds a bitmap of the saved dimensions; a save that threw
      while opening the stream leaves every file as it was. */
  lemma SaveThenGet(codec: Codec, d: RootState, key: string, bitmap: Bitmap, fault: WriteFault)
    requires PreservesDimensions(codec)
    ensures var s := FileSave(codec, d, key, bitmap, fault);
      s.result == Done(true) ==>
        && FileGet(codec, s.dir, key).Some?
        && FileGet(codec, s.dir, key).value.width == bitmap.width
        && FileGet(codec, s.dir, key).value.height == bitmap.height
    ensures fault == OpenFails ==> FileGet(codec, FileSave(codec, d, key, bitmap, fault).dir, key) == FileGet(codec, d, key)
  {
  }

  datatype RemoveStep = RemoveStep(dir: RootState, removed: bool)

  /** remove(key): false and nothing changes when no file named key exists;
      otherwise the result of File.delete, which fails when deleteSucceeds
      is false. */
  function FileRemove(d: RootState, key: string, deleteSucceeds: bool): (r: RemoveStep)
    ensures !HasFile(d, key) ==> !r.removed && r.dir == d
    ensures HasFile(d, key) ==> r.removed == deleteSucceeds
    ensures r.removed ==> !HasFile(r.dir, key)
    ensures !r.removed ==> r.dir == d
    ensures r.removed ==> r.dir == Directory(d.files - {key})
    ensures r.dir.Directory? <==> d.Directory?
    ensures forall k :: k != key ==> Entry(r.dir, k) == Entry(d, k)
  {
    if HasFile(d, key) && deleteSucceeds then RemoveStep(Directory(d.files - {key}), true)
    else RemoveStep(d, false)
  }

  /** The directory after clear() deleted every listed file except those
      whose deletion failed; listFiles() is null when the root is not a
      directory, and iterating over it throws. */
  function Cleared(d: RootState, undeletable: set<string>): (r: Attempt<RootState>)
    ensures r.Threw? <==> !d.Directory?
    ensures r.Threw? ==> r.error == NullPointerException
    ensures r.Done? ==> r.value.Directory?
    ensures r.Done? ==> forall k :: Entry(r.value, k) == if k in undeletable then Entry(d, k) else None
  {
    match d
    case Directory(files) => Done(Directory(map k | k in files && k in undeletable :: files[k]))
    case _ => Threw(NullPointerException)
  }

  /** When every delete succeeds, clear() leaves the directory empty and get
      finds nothing. */
  lemma ClearEmpties(codec: Codec, d: RootState)
    requires d.Directory?
    ensures Cleared(d, {}) == Done(Directory(map[]))
    ensures forall key :: FileGet(codec, Cleared(d, {}).value, key) == None
  {
  }

  class DiskCache {
    const root: Path
    const codec: Codec
    /** The file system under root. */
    var directory: RootState

    constructor (root: Path, codec: Codec, before: RootState, mkdirSucceeds: bool)
      ensures this.root == root && this.codec == codec
      ensures directory == Created(before, mkdirSucceeds)
    {
      this.root := root;
      this.codec := codec;
      if before == Absent {
        // root.mkdir(); its result is ignored
        directory := if mkdirSucceeds then Directory(map[]) else Absent;
      } else {
        directory := before;
      }
    }

    /** The root given at construction, which never changes. */
    method GetDirectory() returns (r: Path)
      ensures r == root
    {
      r := root;
    }

    method Get(key: string) returns (r: Option<Bitmap>)
      ensures r == FileGet(codec, directory, key)
      ensures !HasFile(directory, key) ==> r == None
    {
      r := None;
      if HasFile(directory, key) {
        r := codec.decode(directory.files[key]);
      }
    }

    /** The fate of the output stream is the parameter fault. */
    method Save(key: string, bitmap: Bitmap, fault: WriteFault) returns (r: Attempt<bool>)
      modifies this
      ensures SaveStep(directory, r) == FileSave(codec, old(directory), key, bitmap, fault)
    {
      if !directory.Directory? || fault == OpenFails {
        // new FileOutputStream(File(root, key)) throws FileNotFoundException
        return Threw(IOException);
      }
      var encoded := codec.compress(SaveFormat, SaveQuality, bitmap);
      if fault.FlushFails? {
        // bos.flush() or bos.close() throws; the file holds what reached it
        directory := Directory(directory.files[key := Truncated(encoded.bytes, fault.kept)]);
        return Threw(IOException);
      }
      directory := Directory(directory.files[key := encoded.bytes]);
      r := Done(encoded.ok);
    }

    method Remove(key: string, deleteSucceeds: bool) returns (r: bool)
      modifies this
      ensures RemoveStep(directory, r) == FileRemove(old(directory), key, deleteSucceeds)
    {
      r := false;
      if HasFile(directory, key) {
        r := deleteSucceeds;
        if deleteSucceeds {
          directory := Directory(directory.files - {key});
        }
      }
    }

    /** Deletes the listed files one by one; the files in undeletable are
        those whose File.delete fails. */
    method Clear(undeletable: set<string>) returns (r: Outcome)
      modifies this
      ensures r.Raised? <==> Cleared(old(directory), undeletable).Threw?
      ensures r.Raised? ==> r.error == NullPointerException && directory == old(directory)
      ensures r.Normal? ==> directory == Cleared(old(directory), undeletable).value
    {
      if !directory.Directory? {
        // root.listFiles() is null; the for-each loop dereferences it
        return Raised(NullPointerException);
      }
      ghost var files := directory.files;
      var listed := directory.files.Keys;
      var remaining := listed;
      while remaining != {}
        invariant remaining <= listed == files.Keys
        invariant directory.Directory?
        invariant directory.files == map k | k in files && (k in remaining || k in undeletable) :: files[k]
        decreases remaining
      {
        var f :| f in remaining;
        if f in directory.files && f !in undeletable {
          directory := Directory(directory.files - {f});
        }
        remaining := remaining - {f};
      }
      r := Normal;
    }
  }
}

=== FILE: loader.dfy ===
/** AsynImageLoader: probes the memory tier, then the disk tier, and on a miss
    submits a download task to a lazily created fixed-size pool. A single
    shared handler remembers the view and key of the most recent miss; every
    completed download is shown in that view and cached under that key.

    The state the loader changes is abstracted as a LoaderState value; the
    pure functions Request, Run, Deliver, ClearedMemory, ClearedDisk and
    Released give the effect of each operation on it, and the methods of the
    class AsynImageLoader are proved to have exactly that effect. */
module Loader {
  import opened Platform
  import Memory
  import Disk

  // ---------------------------------------------------------------------
  // Configuration

  /** AsynImageLoader.Options. The bounding box is a pair of positive reals. */
  datatype Options = Options(
    threadPoolSize: int,
    diskCacheable: bool,
    memoryCacheable: bool,
    imageOnLoading: ResourceId,
    imageOnFail: ResourceId,
    debug: bool,
    height: Extent,
    width: Extent,
    diskCacheDir: Path)

  /** AsynImageLoader.Builder: each setter changes one option and returns the
      builder itself. */
  class Builder {
    var options: Options

    /** The defaults of Options; the default directory, which lives on the
        external storage, is a parameter. */
    constructor (defaultDir: Path)
      ensures options.threadPoolSize == 3
      ensures !options.diskCacheable && !options.memoryCacheable
      ensures options.imageOnLoading == NoResource && options.imageOnFail == NoResource
      ensures !options.debug
      ensures options.height == 800.0 && options.width == 320.0
      ensures options.diskCacheDir == defaultDir
    {
      options := Options(3, false, false, NoResource, NoResource, false, 800.0, 320.0, defaultDir);
    }

    method CacheInMemory(b: bool) returns (self: Builder)
      modifies this
      ensures self == this && options == old(options).(memoryCacheable := b)
    {
      options := options.(memoryCacheable := b);
      self := this;
    }

    method CacheOnDisk(b: bool) returns (self: Builder)
      modifies this
      ensures self == this && options == old(options).(diskCacheable := b)
    {
      options := options.(diskCacheable := b);
      self := this;
    }

    method ShowImageOnLoading(res: ResourceId) returns (self: Builder)
      modifies this
      ensures self == this && options == old(options).(imageOnLoading := res)
    {
      options := options.(imageOnLoading := res);
      self := this;
    }

    method ShowImageOnFail(res: ResourceId) returns (self: Builder)
      modifies this
      ensures self == this && options == old(options).(imageOnFail := res)
    {
      options := options.(imageOnFail := res);
      self := this;
    }

    method ShowDebugLogs(b: bool) returns (self: Builder)
      modifies this
      ensures self == this && options == old(options).(debug := b)
    {
      options := options.(debug := b);
      self := this;
    }

    method ThreadPoolSize(i: int) returns (self: Builder)
      modifies this
      ensures self == this && options == old(options).(threadPoolSize := i)
    {
      options := options.(threadPoolSize := i);
      self := this;
    }

    method DiskCacheDir(dir: Path) returns (self: Builder)
      modifies this
      ensures self == this && options == old(options).(diskCacheDir := dir)
    {
      options := options.(diskCacheDir := dir);
      self := this;
    }

    method CacheExtraOptions(width: Extent, height: Extent) returns (self: Builder)
      modifies this
      ensures self == this && options == old(options).(width := width, height := height)
    {
      options := options.(width := width, height := height);
      self := this;
    }

    /** Creates the loader; the platform codec and the state of the disk
        cache directory before construction are parameters. */
    method Build(codec: Codec, rootBefore: Disk.RootState, mkdirSucceeds: bool)
      returns (loader: AsynImageLoader)
      ensures fresh(loader) && loader.Valid()
      ensures loader.options == options && loader.codec == codec
      ensures loader.Abstract() == Constructed(options, rootBefore, mkdirSucceeds)
    {
      loader := new AsynImageLoader(options, codec, rootBefore, mkdirSucceeds);
    }
  }

  // ---------------------------------------------------------------------
  // The worker pool (Executors.newFixedThreadPool)

  /** new LoaderRunnable(url). */
  datatype Task = LoaderRunnable(url: Url)

  /** A pool: its size, whether it was shut down, and every task it accepted. */
  datatype PoolState = PoolState(size: int, isShutdown: bool, submitted: seq<Task>)

  /** Executors.newFixedThreadPool(size). */
  function NewPool(size: int): (r: Attempt<PoolState>)
    ensures r.Threw? <==> size <= 0
    ensures r.Threw? ==> r.error == IllegalArgumentException
    ensures r.Done? ==> r.value.size == size && !r.value.isShutdown && r.value.submitted == []
  {
    if size <= 0 then Threw(IllegalArgumentException) else Done(PoolState(size, false, []))
  }

  /** ExecutorService.execute(task): a shut-down pool rejects it. */
  function PoolExecute(p: PoolState, task: Task): (r: Attempt<PoolState>)
    ensures r.Threw? <==> p.isShutdown
    ensures r.Threw? ==> r.error == RejectedExecutionException
    ensures r.Done? ==> r.value.size == p.size && !r.value.isShutdown
    ensures r.Done? ==> r.value.submitted == p.submitted + [task]
  {
    if p.isShutdown then Threw(RejectedExecutionException)
    else Done(p.(submitted := p.submitted + [task]))
  }

  class WorkerPool {
    const size: int
    var isShutdown: bool
    var submitted: seq<Task>

    constructor (size: int)
      requires size > 0
      ensures this.size == size && !isShutdown && submitted == []
    {
      this.size := size;
      isShutdown := false;
      submitted := [];
    }

    method Execute(task: Task) returns (r: Outcome)
      modifies this
      ensures PoolExecute(old(State()), task) == if r.Raised? then Threw(r.error) else Done(State())
      ensures r.Raised? ==> State() == old(State())
    {
      if isShutdown {
        return Raised(RejectedExecutionException);
      }
      submitted := submitted + [task];
      r := Normal;
    }

    /** ExecutorService.shutdown: no further task is accepted; idempotent. */
    method Shutdown()
      modifies this
      ensures isShutdown && submitted == old(submitted)
    {
      isShutdown := true;
    }

    ghost function State(): PoolState
      reads this
    {
      PoolState(size, isShutdown, submitted)
    }
  }

  // ---------------------------------------------------------------------
  // The download task (LoaderRunnable.run)

  /** How a downscale is applied: not at all, or by one factor on both axes. */
  datatype Scaling = Unscaled | ScaleBy(factor: real)

  /** Whether a bitmap fits the configured bounding box. */
  predicate FitsBox(o: Options, b: Bitmap)
  {
    b.height <= o.height && b.width <= o.width
  }

  /** The scale choice of run(): downscale only when a side exceeds the box,
      and then by the smaller of the two per-axis ratios. */
  function ChooseScale(o: Options, b: Bitmap): (r: Scaling)
    ensures r.Unscaled? <==> FitsBox(o, b)
    ensures r.ScaleBy? ==> 0.0 < r.factor < 1.0
    ensures r.ScaleBy? ==> r.factor * b.height <= o.height && r.factor * b.width <= o.width
    ensures r.ScaleBy? ==> r.factor * b.height == o.height || r.factor * b.width == o.width
  {
    var ch, cw := b.height, b.width;
    if ch > o.height || cw > o.width then
      var h, w := o.height / ch, o.width / cw;
      Ratio(o.height, ch);
      Ratio(o.width, cw);
      if h > w then
        assert w * ch <= h * ch;
        ScaleBy(w)
      else
        assert h * cw <= w * cw;
        ScaleBy(h)
    else
      Unscaled
  }

  /** x / y for positive reals: positive, below 1 when x < y, and undone by
      multiplying by y. */
  lemma Ratio(x: real, y: real)
    requires x > 0.0 && y > 0.0
    ensures x / y > 0.0 && (x / y) * y == x
    ensures x < y ==> x / y < 1.0
  {
    var q := x / y;
    assert q * y == x;
    if x < y {
      assert (1.0 - q) * y == y - x;
      PositiveFactor(1.0 - q, y);
    }
  }

  lemma PositiveFactor(a: real, b: real)
    requires b > 0.0 && a * b > 0.0
    ensures a > 0.0
  {
  }

  /** No larger uniform factor fits the box: the chosen downscale is the
      least shrinking one that makes the bitmap fit. */
  lemma ChosenScaleIsLargestFit(o: Options, b: Bitmap, s: real)
    requires ChooseScale(o, b).ScaleBy?
    requires s * b.height <= o.height && s * b.width <= o.width
    ensures s <= ChooseScale(o, b).factor
  {
  }

  /** Bitmap.createBitmap with the scaling matrix; resampling of the pixels
      themselves is abstract. */
  function Resampled(b: Bitmap, s: Scaling): Bitmap
    requires s.ScaleBy? ==> s.factor > 0.0
  {
    match s
    case Unscaled => b
    case ScaleBy(f) =>
      assert b.width * f > 0.0 && b.height * f > 0.0;
      Bitmap(b.width * f, b.height * f, b.picture)
  }

  /** The message codes of LoaderHandler. */
  const Success: int := 0
  const Failure: int := 1

  /** handler.obtainMessage(what, obj). */
  datatype Message = Message(what: int, obj: Option<Bitmap>)

  predicate IsSuccess(m: Message)
  {
    m.what == Success && m.obj.Some?
  }

  /** What opening the connection and decoding the stream produced:
      an IOException, or BitmapFactory.decodeStream's result. */
  datatype Fetch = FetchFailed | Fetched(decoded: Option<Bitmap>)

  /** Same picture, same aspect ratio. */
  predicate SameShape(a: Bitmap, b: Bitmap)
  {
    a.picture == b.picture && a.width * b.height == a.height * b.width
  }

  /** The message run() sends, if any: none when an IOException was caught,
      failure 1 when decoding gave null, success 0 carrying the bitmap
      downscaled to fit the box. */
  function Run(o: Options, fetch: Fetch): (r: Option<Message>)
    ensures r.None? <==> fetch.FetchFailed?
    ensures fetch == Fetched(None) ==> r == Some(Message(Failure, None))
    ensures fetch.Fetched? && fetch.decoded.Some? ==>
      var b := fetch.decoded.value;
      && r.Some? && IsSuccess(r.value)
      && FitsBox(o, r.value.obj.value)
      && SameShape(r.value.obj.value, b)
      && (FitsBox(o, b) ==> r.value.obj.value == b)
      && (!FitsBox(o, b) ==>
            && r.value.obj.value.height == ChooseScale(o, b).factor * b.height
            && r.value.obj.value.width == ChooseScale(o, b).factor * b.width
            && (r.value.obj.value.height == o.height || r.value.obj.value.width == o.width))
  {
    match fetch
    case FetchFailed => None
    case Fetched(None) => Some(Message(Failure, None))
    case Fetched(Some(b)) =>
      var s := ChooseScale(o, b);
      var scaled := Resampled(b, s);
      assert s.ScaleBy? ==> scaled.width * b.height == s.factor * (b.width * b.height);
      Some(Message(Success, Some(scaled)))
  }

  /** The 1000x500 example: with the default 320x800 box the factor is 0.32
      and the result is 320x160. */
  lemma DefaultBoxExample(o: Options)
    requires o.width == 320.0 && o.height == 800.0
    ensures ChooseScale(o, Bitmap(1000.0, 500.0, 0)) == ScaleBy(0.32)
    ensures Run(o, Fetched(Some(Bitmap(1000.0, 500.0, 0))))
         == Some(Message(Success, Some(Bitmap(320.0, 160.0, 0))))
  {
  }

  // ---------------------------------------------------------------------
  // The loader's state and the effect of each operation on it

  /** What the loader holds: each tier (None when disabled), the pool (None
      until the first miss) and the shared handler's view and key. */
  datatype LoaderState = LoaderState(
    memory: Option<Memory.SoftMap>,
    disk: Option<Disk.RootState>,
    pool: Option<PoolState>,
    handlerView: Option<ViewId>,
    handlerKey: string)

  /** The key LoaderHandler starts with. */
  const DefaultKey: string := "default"

  /** The state right after the constructor. DiskCache's constructor never
      actually throws, so the disk tier exists exactly when it is enabled. */
  function Constructed(o: Options, rootBefore: Disk.RootState, mkdirSucceeds: bool): (r: LoaderState)
    ensures r.memory.Some? <==> o.memoryCacheable
    ensures r.memory.Some? ==> r.memory.value == map[]
    ensures r.disk.Some? <==> o.diskCacheable
    ensures r.disk.Some? ==> r.disk.value == Disk.Created(rootBefore, mkdirSucceeds)
    ensures r.pool.None? && r.handlerView.None? && r.handlerKey == DefaultKey
  {
    LoaderState(
      if o.memoryCacheable then Some(map[]) else None,
      if o.diskCacheable then Some(Disk.Created(rootBefore, mkdirSucceeds)) else None,
      None, None, DefaultKey)
  }

  /** memoryCache.get(key), or null when the tier is disabled. */
  function MemoryProbe(st: LoaderState, key: string): Option<Bitmap>
  {
    if st.memory.Some? then Memory.Lookup(st.memory.value, key) else None
  }

  /** diskCache.get(key), or null when the tier is disabled. */
  function DiskProbe(codec: Codec, st: LoaderState, key: string): Option<Bitmap>
  {
    if st.disk.Some? then Disk.FileGet(codec, st.disk.value, key) else None
  }

  /** The tasks submitted so far. */
  function Tasks(st: LoaderState): seq<Task>
  {
    if st.pool.Some? then st.pool.value.submitted else []
  }

  /** The placeholder shown first, if one is configured. */
  function LoadingEffects(o: Options, view: ViewId): seq<UiEffect>
  {
    if o.imageOnLoading != NoResource then [SetResource(view, o.imageOnLoading)] else []
  }

  /** How displayImage ended. */
  datatype Display = MemoryHit(bitmap: Bitmap) | DiskHit(bitmap: Bitmap) | Submitted | Failed(error: Exception)

  datatype DisplayStep = DisplayStep(state: LoaderState, outcome: Display, ui: seq<UiEffect>)

  /** displayImage(view, url, key). */
  function Request(o: Options, codec: Codec, st: LoaderState, view: ViewId, url: Url, key: string): (r: DisplayStep)
    // the view shows the placeholder, then the cached bitmap on a hit
    ensures r.ui == LoadingEffects(o, view) +
      if r.outcome.MemoryHit? || r.outcome.DiskHit? then [SetBitmap(view, r.outcome.bitmap)] else []
    // memory is probed first; a memory hit changes nothing
    ensures r.outcome.MemoryHit? <==> MemoryProbe(st, key).Some?
    ensures r.outcome.MemoryHit? ==> MemoryProbe(st, key) == Some(r.outcome.bitmap) && r.state == st
    // then the disk; a disk hit is written through to memory, nothing else changes
    ensures r.outcome.DiskHit? <==> MemoryProbe(st, key).None? && DiskProbe(codec, st, key).Some?
    ensures r.outcome.DiskHit? ==>
      && DiskProbe(codec, st, key) == Some(r.outcome.bitmap)
      && r.state == st.(memory := if st.memory.Some? then Some(st.memory.value[key := Some(r.outcome.bitmap)]) else None)
    // a miss leaves both tiers alone
    ensures !r.outcome.MemoryHit? && !r.outcome.DiskHit? ==> r.state.memory == st.memory && r.state.disk == st.disk
    // a miss submits exactly one task, unless creating or using the pool throws
    ensures r.outcome.Submitted? <==>
      && MemoryProbe(st, key).None? && DiskProbe(codec, st, key).None?
      && (if st.pool.Some? then !st.pool.value.isShutdown else o.threadPoolSize > 0)
    ensures Tasks(r.state) == if r.outcome.Submitted? then Tasks(st) + [LoaderRunnable(url)] else Tasks(st)
    ensures r.outcome.Failed? ==> r.outcome.error in {IllegalArgumentException, RejectedExecutionException}
    ensures r.outcome == Failed(IllegalArgumentException) ==> st.pool.None? && r.state == st
    // which exception: creating the pool, or submitting to a shut-down one
    ensures r.outcome == Failed(IllegalArgumentException) <==>
      MemoryProbe(st, key).None? && DiskProbe(codec, st, key).None? && st.pool.None? && o.threadPoolSize <= 0
    ensures r.outcome == Failed(RejectedExecutionException) <==>
      MemoryProbe(st, key).None? && DiskProbe(codec, st, key).None? && st.pool.Some? && st.pool.value.isShutdown
    // the pool is created only when still absent, and never replaced
    ensures st.pool.Some? ==> r.state.pool.Some? && r.state.pool.value.size == st.pool.value.size
                              && r.state.pool.value.isShutdown == st.pool.value.isShutdown
    ensures st.pool.None? && r.state.pool.Some? ==>
      r.outcome.Submitted? && r.state.pool.value == PoolState(o.threadPoolSize, false, [LoaderRunnable(url)])
    // the shared handler is pointed at this request whenever the pool exists on a miss
    ensures r.outcome.Submitted? || r.outcome == Failed(RejectedExecutionException) ==>
      r.state.handlerView == Some(view) && r.state.handlerKey == key
    ensures !r.outcome.Submitted? && r.outcome != Failed(RejectedExecutionException) ==>
      r.state.handlerView == st.handlerView && r.state.handlerKey == st.handlerKey
  {
    var loading := LoadingEffects(o, view);
    var fromMemory := MemoryProbe(st, key);
    if fromMemory.Some? then
      DisplayStep(st, MemoryHit(fromMemory.value), loading + [SetBitmap(view, fromMemory.value)])
    else
      var fromDisk := DiskProbe(codec, st, key);
      if fromDisk.Some? then
        var memory := if st.memory.Some? then Some(st.memory.value[key := fromDisk]) else None;
        DisplayStep(st.(memory := memory), DiskHit(fromDisk.value), loading + [SetBitmap(view, fromDisk.value)])
      else
        var pool := if st.pool.Some? then Done(st.pool.value) else NewPool(o.threadPoolSize);
        if pool.Threw? then
          DisplayStep(st, Failed(pool.error), loading)
        else
          var pointed := st.(pool := Some(pool.value), handlerView := Some(view), handlerKey := key);
          var executed := PoolExecute(pool.value, LoaderRunnable(url));
          if executed.Threw? then
            DisplayStep(pointed, Failed(executed.error), loading)
          else
            DisplayStep(pointed.(pool := Some(executed.value)), Submitted, loading)
  }

  datatype HandleStep = HandleStep(state: LoaderState, ui: seq<UiEffect>)

  /** LoaderHandler.handleMessage(msg): a success is shown in the handler's
      view and put into both enabled tiers under the handler's current key
      (an IOException from the disk save is swallowed, whatever the save left
      behind; fault is the fate of its output stream); a failure only shows
      the failure image, when one is configured. */
  function Deliver(o: Options, codec: Codec, st: LoaderState, msg: Message, fault: Disk.WriteFault): (r: HandleStep)
    ensures r.state.pool == st.pool
    ensures r.state.handlerView == st.handlerView && r.state.handlerKey == st.handlerKey
    ensures r.state.memory.Some? <==> st.memory.Some?
    ensures r.state.disk.Some? <==> st.disk.Some?
    ensures IsSuccess(msg) ==>
      var b := msg.obj.value;
      && (st.memory.Some? ==> r.state.memory.value == st.memory.value[st.handlerKey := Some(b)])
      && (st.disk.Some? ==> r.state.disk.value == Disk.FileSave(codec, st.disk.value, st.handlerKey, b, fault).dir)
      && r.ui == if st.handlerView.Some? then [SetBitmap(st.handlerView.value, b)] else []
    ensures !IsSuccess(msg) ==> r.state == st
    ensures !IsSuccess(msg) ==>
      r.ui == if msg.what == Failure && o.imageOnFail != NoResource && st.handlerView.Some?
              then [SetResource(st.handlerView.value, o.imageOnFail)] else []
  {
    if msg.what == Success then
      match msg.obj
      case Some(b) =>
        var ui := if st.handlerView.Some? then [SetBitmap(st.handlerView.value, b)] else [];
        var memory := if st.memory.Some? then Some(st.memory.value[st.handlerKey := Some(b)]) else None;
        var disk := if st.disk.Some? then Some(Disk.FileSave(codec, st.disk.value, st.handlerKey, b, fault).dir) else None;
        HandleStep(st.(memory := memory, disk := disk), ui)
      case None => HandleStep(st, [])
    else if msg.what == Failure then
      var ui := if o.imageOnFail != NoResource && st.handlerView.Some?
                then [SetResource(st.handlerView.value, o.imageOnFail)] else [];
      HandleStep(st, ui)
    else
      HandleStep(st, [])
  }

  /** A task's completion: run() and, if it sent a message, its delivery.
      Only the composition the scenario lemmas below use; the Handler's
      thread hop between the two is not modelled. */
  function Complete(o: Options, codec: Codec, st: LoaderState, fetch: Fetch, fault: Disk.WriteFault): LoaderState
  {
    match Run(o, fetch)
    case None => st
    case Some(msg) => Deliver(o, codec, st, msg, fault).state
  }

  /** clearMemoryCache(): a no-op when the tier is disabled. */
  function ClearedMemory(st: LoaderState): (r: LoaderState)
    ensures r.memory.Some? <==> st.memory.Some?
    ensures r.memory.Some? ==> r.memory.value == map[]
    ensures r.disk == st.disk && r.pool == st.pool
    ensures r.handlerView == st.handlerView && r.handlerKey == st.handlerKey
  {
    if st.memory.Some? then st.(memory := Some(map[])) else st
  }

  /** clearDiskCache(): a no-op when the tier is disabled; DiskCache.clear's
      NullPointerException propagates. */
  function ClearedDisk(st: LoaderState, undeletable: set<string>): (r: (LoaderState, Outcome))
    ensures r.1.Raised? <==> st.disk.Some? && !st.disk.value.Directory?
    ensures r.1.Raised? ==> r.1.error == NullPointerException && r.0 == st
    ensures r.1.Normal? ==> r.0 == st.(disk := if st.disk.Some? then Some(Disk.Cleared(st.disk.value, undeletable).value) else None)
  {
    if st.disk.None? then (st, Normal)
    else
      match Disk.Cleared(st.disk.value, undeletable)
      case Done(d) => (st.(disk := Some(d)), Normal)
      case Threw(e) => (st, Raised(e))
  }

  /** releas(clearDisk): optionally clears the disk tier, then clears the
      memory tier and shuts the pool down if one was created. An exception
      from the disk clear skips the rest. */
  function Released(st: LoaderState, clearDisk: bool, undeletable: set<string>): (r: (LoaderState, Outcome))
    ensures r.1.Raised? <==> clearDisk && st.disk.Some? && !st.disk.value.Directory?
    ensures r.1.Raised? ==> r.1.error == NullPointerException && r.0 == st
    ensures r.1.Normal? ==> r.0.memory == ClearedMemory(st).memory
    ensures r.1.Normal? ==> r.0.disk == if clearDisk then ClearedDisk(st, undeletable).0.disk else st.disk
    ensures r.1.Normal? ==> r.0.pool == if st.pool.Some? then Some(st.pool.value.(isShutdown := true)) else None
    ensures r.0.handlerView == st.handlerView && r.0.handlerKey == st.handlerKey
  {
    var (afterDisk, cleared) := if clearDisk then ClearedDisk(st, undeletable) else (st, Normal);
    if cleared.Raised? then (st, cleared)
    else
      var afterMemory := ClearedMemory(afterDisk);
      var pool := if st.pool.Some? then Some(st.pool.value.(isShutdown := true)) else None;
      (afterMemory.(pool := pool), Normal)
  }

  // ---------------------------------------------------------------------
  // Properties relating several operations

  /** There is no de-duplication of in-flight fetches: two misses for the
      same key submit two tasks. */
  lemma NoDeduplication(o: Options, codec: Codec, st: LoaderState, v1: ViewId, u1: Url, v2: ViewId, u2: Url, key: string)
    requires MemoryProbe(st, key).None? && DiskProbe(codec, st, key).None?
    requires if st.pool.Some? then !st.pool.value.isShutdown else o.threadPoolSize > 0
    ensures var r1 := Request(o, codec, st, v1, u1, key);
      var r2 := Request(o, codec, r1.state, v2, u2, key);
      && r1.outcome == Submitted && r2.outcome == Submitted
      && Tasks(r2.state) == Tasks(st) + [LoaderRunnable(u1), LoaderRunnable(u2)]
  {
  }

  /** The shared handler holds only the most recent miss: after misses for k1
      and then k2, the download started for k1 is shown in k2's view and
      cached under k2, and k1 stays uncached in memory. */
  lemma CompletionCachedUnderLatestKey(
    o: Options, codec: Codec, st: LoaderState,
    v1: ViewId, u1: Url, k1: string, v2: ViewId, u2: Url, k2: string, b: Bitmap, fault: Disk.WriteFault)
    requires st.memory.Some? && k1 != k2
    requires MemoryProbe(st, k1).None? && DiskProbe(codec, st, k1).None?
    requires MemoryProbe(st, k2).None? && DiskProbe(codec, st, k2).None?
    requires if st.pool.Some? then !st.pool.value.isShutdown else o.threadPoolSize > 0
    ensures var s1 := Request(o, codec, st, v1, u1, k1).state;
      var s2 := Request(o, codec, s1, v2, u2, k2).state;
      var s3 := Complete(o, codec, s2, Fetched(Some(b)), fault);
      && Tasks(s2) == Tasks(st) + [LoaderRunnable(u1), LoaderRunnable(u2)]
      && s3.handlerView == Some(v2)
      && Deliver(o, codec, s2, Run(o, Fetched(Some(b))).value, fault).ui
           == [SetBitmap(v2, Run(o, Fetched(Some(b))).value.obj.value)]
      && MemoryProbe(s3, k2) == Run(o, Fetched(Some(b))).value.obj
      && MemoryProbe(s3, k1).None?
  {
  }

  /** End to end: a miss submits one download; once it completes, a second
      request for the same key is a memory hit on the downloaded bitmap and
      submits nothing, unless the garbage collector reclaimed it meanwhile. */
  lemma SecondRequestHitsMemory(
    o: Options, codec: Codec, st: LoaderState,
    view: ViewId, url: Url, key: string, b: Bitmap, fault: Disk.WriteFault, gcs: seq<string>, view': ViewId, url': Url)
    requires st.memory.Some?
    requires MemoryProbe(st, key).None? && DiskProbe(codec, st, key).None?
    requires if st.pool.Some? then !st.pool.value.isShutdown else o.threadPoolSize > 0
    requires key !in gcs
    ensures var first := Request(o, codec, st, view, url, key);
      var done := Complete(o, codec, first.state, Fetched(Some(b)), fault);
      var collected := done.(memory := Some(Memory.ReclaimAll(done.memory.value, gcs)));
      var second := Request(o, codec, collected, view', url', key);
      && first.outcome == Submitted
      && |Tasks(first.state)| == |Tasks(st)| + 1
      && second.outcome == MemoryHit(Run(o, Fetched(Some(b))).value.obj.value)
      && second.state == collected
  {
    var first := Request(o, codec, st, view, url, key);
    var done := Complete(o, codec, first.state, Fetched(Some(b)), fault);
    var msg := Run(o, Fetched(Some(b))).value;
    assert IsSuccess(msg);
    Memory.LookupAfterReclaims(done.memory.value, gcs, key);
  }

  /** After releas(true) with every delete succeeding: both enabled tiers are
      empty and the pool, if any, is shut down. A later miss is then rejected
      by that pool rather than served; without a pool, a later miss creates
      one, provided the configured size is positive, and submits. */
  lemma ReleaseEmptiesTiers(o: Options, codec: Codec, st: LoaderState, view: ViewId, url: Url, key: string)
    requires st.disk.Some? ==> st.disk.value.Directory?
    ensures var (after, outcome) := Released(st, true, {});
      && outcome.Normal?
      && (after.memory.Some? ==> forall k :: MemoryProbe(after, k).None?)
      && (after.disk.Some? ==> after.disk.value == Disk.Directory(map[]))
      && (after.pool.Some? ==> after.pool.value.isShutdown)
      && (st.pool.Some? ==> Request(o, codec, after, view, url, key).outcome == Failed(RejectedExecutionException))
      && (st.pool.None? ==> Request(o, codec, after, view, url, key).outcome
                              == if o.threadPoolSize > 0 then Submitted else Failed(IllegalArgumentException))
  {
  }

  // ---------------------------------------------------------------------
  // The objects

  /** The inner LoaderHandler: the view and key of the most recent miss. */
  class LoaderHandler {
    var imageView: Option<ViewId>
    var key: string

    constructor ()
      ensures imageView == None && key == DefaultKey
    {
      imageView := None;
      key := DefaultKey;
    }

    method SetImageView(imageView: ViewId)
      modifies this
      ensures this.imageView == Some(imageView) && key == old(key)
    {
      this.imageView := Some(imageView);
    }

    method SetKey(key: string)
      modifies this
      ensures this.key == key && imageView == old(imageView)
    {
      this.key := key;
    }
  }

  class AsynImageLoader {
    const options: Options
    const codec: Codec
    const isDebug: bool
    const memoryCache: Memory.MemoryCache?
    const diskCache: Disk.DiskCache?
    var threadPool: WorkerPool?
    const handler: LoaderHandler

    /** The tiers are fixed at construction and the disk tier uses the
        loader's codec. */
    ghost predicate Valid()
      reads this, diskCache
    {
      && (memoryCache != null <==> options.memoryCacheable)
      && (diskCache != null <==> options.diskCacheable)
      && (diskCache != null ==> diskCache.codec == codec)
    }

    ghost function Abstract(): LoaderState
      reads this, memoryCache, diskCache, threadPool, handler
    {
      LoaderState(
        if memoryCache != null then Some(memoryCache.softMap) else None,
        if diskCache != null then Some(diskCache.directory) else None,
        if threadPool != null then Some(threadPool.State()) else None,
        handler.imageView, handler.key)
    }

    constructor (options: Options, codec: Codec, rootBefore: Disk.RootState, mkdirSucceeds: bool)
      ensures Valid() && this.options == options && this.codec == codec && isDebug == options.debug
      ensures Abstract() == Constructed(options, rootBefore, mkdirSucceeds)
    {
      this.options := options;
      this.codec := codec;
      isDebug := options.debug;
      if options.memoryCacheable {
        memoryCache := new Memory.MemoryCache();
      } else {
        memoryCache := null;
      }
      if options.diskCacheable {
        // DiskCache's constructor declares IOException but never throws it
        diskCache := new Disk.DiskCache(options.diskCacheDir, codec, rootBefore, mkdirSucceeds);
      } else {
        diskCache := null;
      }
      threadPool := null;
      handler := new LoaderHandler();
    }

    method DisplayImage(imageView: ViewId, imgUrl: Url, key: string) returns (outcome: Display, ui: seq<UiEffect>)
      requires Valid()
      modifies this, handler, memoryCache, threadPool
      ensures Valid()
      ensures DisplayStep(Abstract(), outcome, ui) == Request(options, codec, old(Abstract()), imageView, imgUrl, key)
      ensures old(threadPool) != null ==> threadPool == old(threadPool)
      ensures old(threadPool) == null && threadPool != null ==> fresh(threadPool)
    {
      ui := LoadingEffects(options, imageView);
      if memoryCache != null {
        var bitmap := memoryCache.Get(key);
        if bitmap.Some? {
          ui := ui + [SetBitmap(imageView, bitmap.value)];
          return MemoryHit(bitmap.value), ui;
        }
      }
      if diskCache != null {
        var bitmap := diskCache.Get(key);
        if bitmap.Some? {
          ui := ui + [SetBitmap(imageView, bitmap.value)];
          if memoryCache != null {
            var stored := memoryCache.Put(key, bitmap.value);
          }
          return DiskHit(bitmap.value), ui;
        }
      }
      if threadPool == null {
        var created := InitThreadPool();
        if created.Raised? {
          return Failed(created.error), ui;
        }
      }
      handler.SetImageView(imageView);
      handler.SetKey(key);
      var executed := threadPool.Execute(LoaderRunnable(imgUrl));
      if executed.Raised? {
        return Failed(executed.error), ui;
      }
      outcome := Submitted;
    }

    /** Replaces the pool unconditionally; displayImage only calls it while
        there is none. */
    method InitThreadPool() returns (r: Outcome)
      modifies this
      ensures r.Raised? <==> options.threadPoolSize <= 0
      ensures r.Raised? ==> r.error == IllegalArgumentException && threadPool == old(threadPool)
      ensures r.Normal? ==> threadPool != null && fresh(threadPool)
      ensures r.Normal? ==> threadPool.State() == NewPool(options.threadPoolSize).value
    {
      if options.threadPoolSize <= 0 {
        return Raised(IllegalArgumentException);
      }
      threadPool := new WorkerPool(options.threadPoolSize);
      r := Normal;
    }

    /** LoaderHandler.handleMessage, which reads the loader's tiers and
        options; fault is the fate of the disk save's output stream. */
    method HandleMessage(msg: Message, fault: Disk.WriteFault) returns (ui: seq<UiEffect>)
      requires Valid()
      modifies memoryCache, diskCache
      ensures Valid()
      ensures HandleStep(Abstract(), ui) == Deliver(options, codec, old(Abstract()), msg, fault)
    {
      ui := [];
      if msg.what == Success {
        if msg.obj.Some? {
          var b := msg.obj.value;
          if handler.imageView.Some? {
            ui := [SetBitmap(handler.imageView.value, b)];
          }
          if memoryCache != null {
            var stored := memoryCache.Put(handler.key, b);
          }
          if diskCache != null {
            // an IOException is caught and ignored, and so is the result
            var saved := diskCache.Save(handler.key, b, fault);
          }
        }
      } else if msg.what == Failure {
        if options.imageOnFail != NoResource && handler.imageView.Some? {
          ui := [SetResource(handler.imageView.value, options.imageOnFail)];
        }
      }
    }

    method ClearMemoryCache()
      requires Valid()
      modifies memoryCache
      ensures Valid()
      ensures Abstract() == ClearedMemory(old(Abstract()))
    {
      if memoryCache == null {
        return;
      }
      memoryCache.Clear();
    }

    /** undeletable: the files whose File.delete fails. */
    method ClearDiskCache(undeletable: set<string>) returns (r: Outcome)
      requires Valid()
      modifies diskCache
      ensures Valid()
      ensures (Abstract(), r) == ClearedDisk(old(Abstract()), undeletable)
    {
      if diskCache == null {
        return Normal;
      }
      r := diskCache.Clear(undeletable);
    }

    method Releas(clearDisk: bool, undeletable: set<string>) returns (r: Outcome)
      requires Valid()
      modifies memoryCache, diskCache, threadPool
      ensures Valid()
      ensures (Abstract(), r) == Released(old(Abstract()), clearDisk, undeletable)
    {
      if clearDisk {
        r := ClearDiskCache(undeletable);
        if r.Raised? {
          return;
        }
      }
      ClearMemoryCache();
      if threadPool != null {
        threadPool.Shutdown();
      }
      r := Normal;
    }
  }
}

=== FILE: memory_cache.dfy ===
/** The memory tier: a map from key to a soft reference to a bitmap. A soft
    reference that the garbage collector has reclaimed stays in the map and
    reads as null, so a key can be present with no value. */
module Memory {
  import opened Platform

  /** The content of softMap: None stands for a reclaimed reference. */
  type SoftMap = map<string, Option<Bitmap>>

  /** What get(key) returns: the still-live value, or null. */
  function Lookup(m: SoftMap, key: string): Option<Bitmap>
  {
    if key in m then m[key] else None
  }

  /** One garbage-collector step: the referent of key's entry is cleared,
      the entry itself stays. */
  function Reclaim(m: SoftMap, key: string): (r: SoftMap)
    ensures r.Keys == m.Keys
    ensures Lookup(r, key) == None
    ensures forall k :: k != key ==> Lookup(r, k) == Lookup(m, k)
  {
    if key in m then m[key := None] else m
  }

  /** Several reclamation steps, in order. */
  function ReclaimAll(m: SoftMap, keys: seq<string>): SoftMap
    decreases |keys|
  {
    if keys == [] then m else ReclaimAll(Reclaim(m, keys[0]), keys[1..])
  }

  /** Reclamation never removes a key: keys() is unchanged by any number of
      garbage-collector steps. */
  lemma {:induction false} ReclaimKeepsKeys(m: SoftMap, gcs: seq<string>)
    ensures ReclaimAll(m, gcs).Keys == m.Keys
    decreases |gcs|
  {
    if gcs != [] {
      ReclaimKeepsKeys(Reclaim(m, gcs[0]), gcs[1..]);
    }
  }

  /** After any sequence of reclamations, a key reads as null exactly when it
      was reclaimed at some step, and otherwise as it read before. */
  lemma {:induction false} LookupAfterReclaims(m: SoftMap, gcs: seq<string>, key: string)
    ensures Lookup(ReclaimAll(m, gcs), key) == if key in gcs then None else Lookup(m, key)
    decreases |gcs|
  {
    if gcs != [] {
      LookupAfterReclaims(Reclaim(m, gcs[0]), gcs[1..], key);
      assert key in gcs <==> key == gcs[0] || key in gcs[1..];
    }
  }

  /** get right after put(key, value) returns value, unless the garbage
      collector reclaimed that reference in between, in which case null. */
  lemma GetAfterPut(m: SoftMap, key: string, value: Bitmap, gcs: seq<string>)
    ensures Lookup(ReclaimAll(m[key := Some(value)], gcs), key)
         == if key in gcs then None else Some(value)
    ensures ReclaimAll(m[key := Some(value)], gcs).Keys == m.Keys + {key}
  {
    LookupAfterReclaims(m[key := Some(value)], gcs, key);
    ReclaimKeepsKeys(m[key := Some(value)], gcs);
  }

  class MemoryCache {
    var softMap: SoftMap

    constructor ()
      ensures softMap == map[]
    {
      softMap := map[];
    }

    /** Stores a fresh soft reference, replacing any previous entry for key. */
    method Put(key: string, value: Bitmap) returns (r: bool)
      modifies this
      ensures r
      ensures softMap == old(softMap)[key := Some(value)]
      ensures Lookup(softMap, key) == Some(value)
      ensures forall k :: k != key ==> Lookup(softMap, k) == Lookup(old(softMap), k)
    {
      softMap := softMap[key := Some(value)];
      r := true;
    }

    /** The still-live value of key's entry; null when there is no entry or
        its reference was reclaimed. */
    method Get(key: string) returns (r: Option<Bitmap>)
      ensures key !in softMap ==> r == None
      ensures key in softMap ==> r == softMap[key]
    {
      r := None;
      if key in softMap {
        r := softMap[key];
      }
    }

    /** Drops key's entry and returns what it still held. */
    method Remove(key: string) returns (r: Option<Bitmap>)
      modifies this
      ensures r == Lookup(old(softMap), key)
      ensures softMap == old(softMap) - {key}
      ensures key !in softMap
      ensures forall k :: k != key ==> Lookup(softMap, k) == Lookup(old(softMap), k)
    {
      r := Lookup(softMap, key);
      softMap := softMap - {key};
    }

    /** The keys with an entry, including entries whose value was reclaimed. */
    method Keys() returns (r: set<string>)
      ensures forall k :: k in r <==> k in softMap
    {
      r := softMap.Keys;
    }

    method Clear()
      modifies this
      ensures softMap == map[]
      ensures forall k :: Lookup(softMap, k) == None
    {
      softMap := map[];
    }

    /** The garbage collector clears the referent of key's soft reference. */
    method GarbageCollect(key: string)
      modifies this
      ensures softMap == Reclaim(old(softMap), key)
    {
      if key in softMap {
        softMap := softMap[key := None];
      }
    }
  }
}

=== FILE: platform.dfy ===
/** Value types shared by the two cache tiers and the loader: the abstract
    bitmap, the platform's image codec, Java exceptions that matter to the
    control flow, and the effects the loader has on an image view. */
module Platform {

  /** A Java reference that may be null. */
  datatype Option<+T> = None | Some(value: T)

  /** The checked and unchecked exceptions whose propagation the model keeps. */
  datatype Exception =
    | IOException                  // java.io.IOException and FileNotFoundException
    | NullPointerException
    | IllegalArgumentException     // Executors.newFixedThreadPool with a size <= 0
    | RejectedExecutionException   // ExecutorService.execute after shutdown

  /** The result of a Java call that either returns normally or throws. */
  datatype Attempt<+T> = Done(value: T) | Threw(error: Exception)

  /** The result of a void Java call: it returns, or it throws. */
  datatype Outcome = Normal | Raised(error: Exception)

  /** A strictly positive dimension: a decoded bitmap is never empty. */
  type Extent = r: real | r > 0.0 witness 1.0

  /** A decoded raster image. Its pixels are abstracted to a tag that
      identifies the picture; resampling keeps the tag. */
  datatype Bitmap = Bitmap(width: Extent, height: Extent, picture: nat)

  type Bytes = seq<bv8>
  type Path = string
  type Url = string

  /** The image view a request is displayed in, by identity. */
  type ViewId = nat

  /** Android resource identifier; -1 means "none configured". */
  type ResourceId = int
  const NoResource: ResourceId := -1

  /** Bitmap.CompressFormat. */
  datatype CompressFormat = PNG | JPEG | WEBP

  /** What Bitmap.compress reports and what it has written to the stream. */
  datatype Compressed = Compressed(ok: bool, bytes: Bytes)

  /** The platform's encoder (Bitmap.compress) and decoder
      (BitmapFactory.decodeFile), left uninterpreted: any pair of functions. */
  datatype Codec = Codec(
    compress: (CompressFormat, int, Bitmap) -> Compressed,
    decode: Bytes -> Option<Bitmap>)

  /** A codec whose successful encodings decode back to a bitmap of the same
      dimensions (lossy, but size preserving). Only used as an assumption. */
  ghost predicate PreservesDimensions(codec: Codec)
  {
    forall f, q, b {:trigger codec.compress(f, q, b)} ::
      codec.compress(f, q, b).ok ==>
        var d := codec.decode(codec.compress(f, q, b).bytes);
        d.Some? && d.value.width == b.width && d.value.height == b.height
  }

  /** A visible change made to an image view. */
  datatype UiEffect =
    | SetResource(view: ViewId, resource: ResourceId)   // ImageView.setImageResource
    | SetBitmap(view: ViewId, bitmap: Bitmap)           // ImageView.setImageBitmap
}
